=== FILE: README.md ===
# Table mapper of the quest ORM, modelled in Dafny

This project models the schema-synthesis and row-marshalling core of the `Table` class of the
quest object-relational mapper (`net.avicus.quest.model.Table`). A `Table` binds a model class to
a named table. From the model's annotated fields it derives:

- the column list;
- the SQL type text of each column, used to create the table;
- the row written for an instance, which leaves the identity field out;
- a fresh instance read back from a row, with boolean coercion and null skipping;
- the write-back of a generated key into the first identity field.

Java reflection is replaced by explicit data. A model (`Tables.Model`) is its simple name, its
declared fields in declaration order, and whether its no-argument constructor can be called.
Each field (`Schema.Field`) has:

- a name;
- a kind: `String`, `int`, `double`, `float`, `boolean`, `Boolean`, `Date` or another type by
  simple name;
- an optional `@Column` annotation (`Schema.Column`);
- an `@Id` flag;
- the value the constructor leaves in it.

Values are a tagged union (`Schema.Value`). A row is an insertion-ordered map
(`LinkedMaps.LinkedMap`) that behaves like `java.util.LinkedHashMap`: putting a key that is
already there replaces its value and keeps its position. An instance is a `Tables.Instance`
object whose field map the mapper updates in place.

Modules:

- `Wrappers`: `Option` and `Result`. A `Failure` carries the message of the exception the source
  throws.
- `Decimal`: the parts of `Integer.parseInt` and `Integer.toString` that `DEFAULT` rendering and
  `VARCHAR(n)` use. Parsing accepts ASCII digits, an optional sign, and values in the 32-bit
  range.
- `LinkedMaps`: the ordered map, and the map built by putting a list of pairs one after another.
- `Schema`: the descriptors, column selection and naming, type synthesis, modifiers, the first
  identity field, and boolean coercion.
- `Tables`: the `Table` class with the imperative operations. Each one is proved against a
  specification function, and lemmas state what those functions guarantee.

Points where the code behaves differently from what one might expect, all modelled as written:

- Only a `def` that parses as a 32-bit int is rendered bare. `"1.5"` and `"2147483648"` are
  quoted.
- The `Boolean` wrapper has no SQL type: synthesis fails with `Boolean is not supported.`.
  Reading a row still coerces it like `boolean`.
- A boolean field that is missing from the row is set to false. It does not keep its initial
  value.
- A fresh instance starts from whatever its no-argument constructor leaves in each field, not
  from zero values.
- Nothing enforces that only one field carries `@Id`. Every `@Id` field is left out of the
  written row and gets `AUTO_INCREMENT NOT NULL PRIMARY KEY`. The generated key alone goes to
  the first one in declaration order.

## Model

| member | source | states |
|---|---|---|
| `Schema.ColumnFields` | src/main/java/net/avicus/quest/model/Table.java:130-138 | every selected entry is a declared field that carries that annotation; every annotated field is selected |
| `Schema.ColumnFieldsAppend` | src/main/java/net/avicus/quest/model/Table.java:130-138 | selection keeps declaration order: the columns of `a + b` are the columns of `a` followed by those of `b` |
| `Schema.ColumnFieldsEmpty` | src/main/java/net/avicus/quest/model/Table.java:130-138 | a model has no columns exactly when none of its fields is annotated |
| `Schema.ColumnFieldsDistinct` | src/main/java/net/avicus/quest/model/Table.java:130-138 | fields with distinct names stay distinct after selection |
| `Tables.Table.GetColumnFields` | src/main/java/net/avicus/quest/model/Table.java:130-138 | the loop over the declared fields returns exactly the selected annotated fields, in order |
| `Schema.ColumnName` | src/main/java/net/avicus/quest/model/Table.java:144-148 | the annotation's name when it is non-empty, the field's own name otherwise |
| `Tables.Table.GetColumns` | src/main/java/net/avicus/quest/model/Table.java:123-128 | one name per annotated field, the identity field included, in declaration order, each the column name of that field |
| `Schema.BaseType` | src/main/java/net/avicus/quest/model/Table.java:154-172 | an inferred base type exists for every kind except the `Boolean` wrapper and other types |
| `Schema.ColumnType` | src/main/java/net/avicus/quest/model/Table.java:150-175 | a non-empty explicit type is returned verbatim with no modifiers; with no explicit type and a supported kind the result is the inferred base type, one space, and the modifier text; synthesis fails exactly when there is no explicit type and the kind is unsupported, with the message `<SimpleName> is not supported.` |
| `Schema.VarcharLength` | src/main/java/net/avicus/quest/model/Table.java:155-159 | a bounded string column is `VARCHAR(n) ` + modifiers, with n the length if it is at least 0 and 255 otherwise; the digits inside the parentheses parse back to n |
| `Schema.VarcharExamples` | src/main/java/net/avicus/quest/model/Table.java:155-174 | with no modifiers, a negative length gives exactly `VARCHAR(255) ` and length 50 gives `VARCHAR(50) ` |
| `Schema.TrailingSpace` | src/main/java/net/avicus/quest/model/Table.java:161-174 | an `int` column with no modifiers is `INT ` with a trailing space |
| `Schema.BoxedBooleanUnsupported` | src/main/java/net/avicus/quest/model/Table.java:167-172 | a `Boolean` wrapper field with no explicit type fails with `Boolean is not supported.` |
| `Schema.ModifiersPresent` | src/main/java/net/avicus/quest/model/Table.java:177-194 | AUTO_INCREMENT is present iff the field is the id; NOT NULL iff the column is not nullable or the field is the id; PRIMARY KEY iff primaryKey is set or the field is the id; UNIQUE iff unique is set; a DEFAULT clause iff `def` is non-empty, and then it is the clause rendered from `def` |
| `Schema.ModifiersRanked` | src/main/java/net/avicus/quest/model/Table.java:177-194 | every modifier appears at most once, in the fixed order AUTO_INCREMENT, NOT NULL, PRIMARY KEY, UNIQUE, DEFAULT |
| `Schema.Modifiers` | src/main/java/net/avicus/quest/model/Table.java:178-194 | the list built by the five conditional appends is empty exactly when the field is not the id, the column is nullable, is neither primary key nor unique, and has no default |
| `Schema.ModifierText` | src/main/java/net/avicus/quest/model/Table.java:196 | the joined modifier text is empty exactly when there are no modifiers |
| `Schema.Join` | src/main/java/net/avicus/quest/model/Table.java:196 | `String.join`: no parts give the empty string and one part gives that part |
| `Schema.JoinSnoc` | src/main/java/net/avicus/quest/model/Table.java:196 | joining one more part appends the separator and that part |
| `Schema.JoinEmpty` | src/main/java/net/avicus/quest/model/Table.java:196 | a join of non-empty parts is empty exactly when there are no parts |
| `Tables.Table.GetColumnModifiers` | src/main/java/net/avicus/quest/model/Table.java:177-197 | building the list token by token and joining it with single spaces gives the text of those modifiers |
| `Schema.IdentityModifierList` | src/main/java/net/avicus/quest/model/Table.java:177-194 | an identity field that is unique and has default `x` carries all five modifiers, in order |
| `Schema.IdentityModifiers` | src/main/java/net/avicus/quest/model/Table.java:177-196 | for that field the text is exactly `AUTO_INCREMENT NOT NULL PRIMARY KEY UNIQUE DEFAULT 'x'` |
| `Schema.DefaultClause` | src/main/java/net/avicus/quest/model/Table.java:187-194 | a `def` that parses as a 32-bit int gives `DEFAULT <int>`; any other `def` gives `DEFAULT '<def>'` |
| `Schema.DefaultNumeral` | src/main/java/net/avicus/quest/model/Table.java:189-190 | any in-range numeral with an optional sign and any leading zeros gives `DEFAULT ` and the canonical text of its value, the same clause that canonical text gives |
| `Schema.DefaultNotNumeral` | src/main/java/net/avicus/quest/model/Table.java:191-192 | anything that is not an in-range signed numeral gives `DEFAULT '<def>'` verbatim |
| `Schema.DefaultLeadingZeros` | src/main/java/net/avicus/quest/model/Table.java:189-190 | `007` gives `DEFAULT 7` |
| `Schema.DefaultNegative` | src/main/java/net/avicus/quest/model/Table.java:189-190 | `-12` gives `DEFAULT -12` |
| `Schema.DefaultDecimalQuoted` | src/main/java/net/avicus/quest/model/Table.java:188-193 | `1.5` gives `DEFAULT '1.5'` |
| `Schema.DefaultOutOfRangeQuoted` | src/main/java/net/avicus/quest/model/Table.java:188-193 | `2147483648` is outside the int range and gives `DEFAULT '2147483648'` |
| `Decimal.ParseInt` | src/main/java/net/avicus/quest/model/Table.java:189 | a parsed value lies in the 32-bit range; the text is non-empty and starts with a digit or a sign; without a leading minus the value is non-negative |
| `Decimal.NatToString` | src/main/java/net/avicus/quest/model/Table.java:190 | the decimal text is all digits, has no leading zero, and denotes the number |
| `Decimal.IntToString` | src/main/java/net/avicus/quest/model/Table.java:190 | canonical `Integer.toString`: a minus exactly for a negative number, never a plus, then a non-empty run of digits with no leading zero that denotes the absolute value |
| `Decimal.ParseIntToString` | src/main/java/net/avicus/quest/model/Table.java:189-190 | parsing the rendering of any 32-bit int gives that int back |
| `Decimal.ParseIntAccepts` | src/main/java/net/avicus/quest/model/Table.java:189 | every numeral of an optional `+` or `-` and a non-empty run of ASCII digits whose value fits in 32 bits parses to that value |
| `Decimal.ParseIntMeaning` | src/main/java/net/avicus/quest/model/Table.java:189 | s parses to v exactly when s is an optional sign followed by a non-empty run of digits denoting v, negated after a minus, within the 32-bit range |
| `Schema.IdIndex` | src/main/java/net/avicus/quest/model/Table.java:199-204 | the position of an identity column such that no earlier column is an identity column; none exactly when no column is an identity column |
| `Schema.Truthy` | src/main/java/net/avicus/quest/model/Table.java:94-95 | the coerced boolean is true exactly for the integer 1 and the string `true` |
| `LinkedMaps.LinkedMap.Put` | src/main/java/net/avicus/quest/model/Table.java:49 | keeps the map well formed; sets the key's value; a present key keeps its position; a new key is appended |
| `LinkedMaps.BuildMap` | src/main/java/net/avicus/quest/model/Table.java:42-50 | successive puts from an empty map give a well-formed ordered map |
| `LinkedMaps.BuildMapDistinctKeys` | src/main/java/net/avicus/quest/model/Table.java:42-50 | with no repeated key, the keys come out in the order of the puts |
| `LinkedMaps.BuildMapDistinct` | src/main/java/net/avicus/quest/model/Table.java:42-50 | with no repeated key, each key also maps to the value it was put with |
| `LinkedMaps.BuildMapLastWins` | src/main/java/net/avicus/quest/model/Table.java:56-73 | a repeated key holds the value of its last put |
| `Tables.CreateSpec` | src/main/java/net/avicus/quest/model/Table.java:42-50 | the column map handed to createTable, or the first failure; a successful map is well formed |
| `Tables.Table.Create` | src/main/java/net/avicus/quest/model/Table.java:41-53 | the table name and the full column map are handed over exactly when every column's type is synthesised; otherwise the failure comes back and nothing is handed over |
| `Tables.CreateAllOrNothing` | src/main/java/net/avicus/quest/model/Table.java:41-52 | creation fails exactly when some column's type synthesis fails |
| `Tables.CreateFailsAtFirst` | src/main/java/net/avicus/quest/model/Table.java:44-50 | the failure reported is that of the first column in declaration order whose synthesis fails |
| `Tables.CreateFailurePrefix` | src/main/java/net/avicus/quest/model/Table.java:44-50 | once a column fails, the later columns do not change the result |
| `Tables.CreatePrefixSucceeds` | src/main/java/net/avicus/quest/model/Table.java:44-50 | when every column's type is synthesised, creation succeeds |
| `Tables.CreateIsBuildMap` | src/main/java/net/avicus/quest/model/Table.java:42-50 | the successful column map is the puts of each (name, type) pair in declaration order |
| `Tables.CreateColumnsInOrder` | src/main/java/net/avicus/quest/model/Table.java:41-52 | with distinct column names, the map lists every column name in declaration order, and each name maps to its synthesised type |
| `Tables.NoColumnsEmptyTable` | src/main/java/net/avicus/quest/model/Table.java:41-52 | a model with no annotated field creates a table with an empty column map |
| `Tables.WritePairs` | src/main/java/net/avicus/quest/model/Table.java:57-74 | the keys of the pairs put into the row are exactly the non-identity column names, in declaration order |
| `Tables.Table.FromInstance` | src/main/java/net/avicus/quest/model/Table.java:55-76 | the row is the puts of (column name, current value) for every non-identity column, in declaration order |
| `Tables.WriteRowSnoc` | src/main/java/net/avicus/quest/model/Table.java:57-74 | one more column either leaves the row alone, for an identity column, or puts that column's value |
| `Tables.WriteRowKeys` | src/main/java/net/avicus/quest/model/Table.java:55-76 | with distinct column names, the row's keys are the non-identity column names in declaration order |
| `Tables.WriteRowMembership` | src/main/java/net/avicus/quest/model/Table.java:55-76 | with distinct column names, a column is in the row exactly when it is not an identity column, so the id never appears |
| `Tables.WriteRowValues` | src/main/java/net/avicus/quest/model/Table.java:55-76 | with distinct column names, each non-identity column maps to its field's current value |
| `Tables.WriteRowShape` | src/main/java/net/avicus/quest/model/Table.java:55-76 | the three facts above together |
| `Tables.RowGet` | src/main/java/net/avicus/quest/model/Table.java:92 | `Row.get`: a present column gives its stored value; a non-null result means the column is present |
| `Tables.Defaults` | src/main/java/net/avicus/quest/model/Table.java:82 | a freshly constructed instance has a slot for every declared field |
| `Tables.Incoming` | src/main/java/net/avicus/quest/model/Table.java:91-95 | a boolean or `Boolean` column reads as the coercion of the row value, even when it is null or missing; any other column reads as the row value |
| `Tables.DefaultsAt` | src/main/java/net/avicus/quest/model/Table.java:82 | a freshly constructed instance holds each field's constructor value |
| `Tables.ReadValuesOther` | src/main/java/net/avicus/quest/model/Table.java:87-104 | a field that is not a column keeps its starting value |
| `Tables.ReadValuesAt` | src/main/java/net/avicus/quest/model/Table.java:87-104 | a column's field takes the value read for it, or keeps its starting value when that value is null |
| `Tables.ReadValues` | src/main/java/net/avicus/quest/model/Table.java:87-104 | reading adds to the instance exactly the fields of the columns whose incoming value is not null |
| `Tables.ReadInstance` | src/main/java/net/avicus/quest/model/Table.java:78-106 | every annotated field is visited, the id included; a boolean field is true iff the row holds 1 or `true` (null, missing, 0, `false`, other strings and a Boolean true all give false); another field takes the row's value, or keeps its constructor value when the row's value is null or missing; a field that is not a column keeps its constructor value |
| `Tables.Table.NewInstance` | src/main/java/net/avicus/quest/model/Table.java:78-106 | a non-instantiable model fails with `Couldn't instantiate model via "new <Name>()".`; otherwise a fresh instance whose fields are those read from the row |
| `Tables.WriteThenRead` | src/main/java/net/avicus/quest/model/Table.java:55-106 | reading back a written row returns each non-identity, non-boolean, non-null value; a boolean comes back true only if it was written as 1 or `true`; a non-boolean id keeps its constructor value |
| `Tables.ReadBackExample` | src/main/java/net/avicus/quest/model/Table.java:78-121 | reading `{id: 7, name: "Ann", active: 1}` with no generated key gives id 7, name `Ann`, active true |
| `Tables.WriteExample` | src/main/java/net/avicus/quest/model/Table.java:55-76 | writing `{id: 0, name: "Ann", active: true}` gives the row `name`, `active` in that order with no `id` key |
| `Tables.GeneratedKeyFirstId` | src/main/java/net/avicus/quest/model/Table.java:108-121 | a present key is written to the first identity column in declaration order, and no other field changes |
| `Tables.GeneratedKeyNoop` | src/main/java/net/avicus/quest/model/Table.java:108-121 | with no key, or with no identity column, the fields are unchanged |
| `Tables.WithGeneratedKey` | src/main/java/net/avicus/quest/model/Table.java:109-119 | with no key or no identity column nothing changes; otherwise only the first identity field is set, to the key, and every other field keeps its value |
| `Tables.Table.constructor` | src/main/java/net/avicus/quest/model/Table.java:19-23 | the table keeps the table name and the model it was built with |
| `Tables.Table.ApplyAutoGenerated` | src/main/java/net/avicus/quest/model/Table.java:108-121 | returns the same instance, whose fields are updated in place exactly as the generated-key specification says |

## Left out

- Reflection and annotation lookup (`getDeclaredFields`, `setAccessible`, `getColumn`,
  `getAnnotations`, `getAnnotationTypes`) are replaced by the explicit field descriptors. `isId`
  becomes the descriptor's `isId` flag.
- The `IllegalAccessException` paths cannot arise once fields are explicit data, so they are
  not modelled. Failure to instantiate the model is the `instantiable` flag of the model.
- `Tables.Fits`, `Tables.Table.NewInstance`, `Tables.Table.ApplyAutoGenerated`: a value whose
  type does not match its field makes `field.set` throw. The preconditions `RowFits` (required
  only when the model can be instantiated, since the row is not read otherwise) and `KeyFits`
  exclude this only for the seven listed kinds. A field of any other type is assumed to accept
  every value, so a boxed `Integer` field given a string, or a `Long` id given the `Integer` key,
  is not excluded although Java throws there. In the other direction, `Field.set` unboxes and
  applies any widening conversion, so Java stores an `Integer` row value or generated key in a
  `double` or `float` field, and a `Float` in a `double` field. No widening is modelled: the
  preconditions exclude those inputs.
- `Tables.Fits`, `Schema.Truthy`: `IntV` stands for `java.lang.Integer` only. A `Long` or
  `Short` 1 from the driver, for which `value.equals(1)` is false, is not modelled.
- `Schema.ColumnFields`: `getDeclaredFields` documents no particular order. The model takes the
  fields in declaration order, which is what the mapper relies on for column order.
- The call to `Database.createTable` is external. `Create` returns the table name and the
  ordered column map it would pass.
- The database handle field, the query-builder factories `select`, `insert`, `update` and
  `delete`, and the Lombok getters are thin wrappers over classes that are not part of this
  model.
- The `Row` class is not part of this model. It is taken to behave like the `LinkedHashMap`
  it wraps, where `get` of a missing column returns null.
- Double, float and date values are opaque tags. No arithmetic or conversion is modelled.
- `Decimal.ParseInt`: Unicode digits, which `Integer.parseInt` also accepts, are not
  modelled. Only ASCII digits are.
- `Tables.WriteRowKeys`, `Tables.WriteRowMembership`, `Tables.WriteRowValues`,
  `Tables.WriteRowShape`, `Tables.CreateColumnsInOrder`, `Tables.WriteThenRead`: these assume
  distinct column names, which the code never checks. With a repeated name, the ordered map keeps
  the first position (`LinkedMaps.LinkedMap.Put`) and the last value
  (`LinkedMaps.BuildMapLastWins`), so an id column that shares a name with another column can
  appear in a row.
- Concurrency and caching of metadata: the mapper keeps no state, and none is modelled.

=== FILE: decimal.dfy ===
/**
 * Decimal text of 32-bit integers: the recogniser behind Integer.parseInt (ASCII
 * digits, one optional sign, range check) and the rendering of an int by string
 * concatenation (Integer.toString).
 */
module Decimal {
  import opened Wrappers

  const MinInt: int := -0x8000_0000
  const MaxInt: int := 0x7fff_ffff

  predicate InInt32(n: int) { MinInt <= n <= MaxInt }

  predicate IsDigit(c: char) { '0' <= c <= '9' }

  predicate AllDigits(s: string) { forall i :: 0 <= i < |s| ==> IsDigit(s[i]) }

  function DigitValue(c: char): (d: nat)
    requires IsDigit(c)
    ensures d < 10
  {
    c as int - '0' as int
  }

  function DigitChar(d: nat): (c: char)
    requires d < 10
    ensures IsDigit(c) && DigitValue(c) == d
  {
    ('0' as int + d) as char
  }

  /** The value of a run of ASCII digits, most significant digit first. */
  function DigitsValue(s: string): nat
    requires AllDigits(s)
  {
    if s == [] then 0 else DigitsValue(s[..|s| - 1]) * 10 + DigitValue(s[|s| - 1])
  }

  /**
   * Integer.parseInt(s, 10) restricted to ASCII digits: None stands for the
   * NumberFormatException. A leading '-' or '+' is allowed, at least one digit must
   * follow, and the value must fit in 32 bits.
   */
  function ParseInt(s: string): (r: Option<int>)
    ensures r.Some? ==> InInt32(r.value)
    ensures r.Some? ==> |s| > 0 && (IsDigit(s[0]) || s[0] == '-' || s[0] == '+')
    ensures r.Some? && s[0] != '-' ==> r.value >= 0
  {
    if s == [] then None
    else
      var digits := if s[0] == '-' || s[0] == '+' then s[1..] else s;
      if digits == [] || !AllDigits(digits) then None
      else
        var v: int := if s[0] == '-' then 0 - DigitsValue(digits) as int else DigitsValue(digits);
        if InInt32(v) then Some(v) else None
  }

  /** Shortest decimal text of a natural number. */
  function NatToString(n: nat): (s: string)
    ensures |s| > 0 && AllDigits(s)
    ensures DigitsValue(s) == n
    ensures |s| > 1 ==> s[0] != '0'
  {
    if n < 10 then [DigitChar(n)]
    else
      var prefix := NatToString(n / 10);
      var s := prefix + [DigitChar(n % 10)];
      assert s[..|s| - 1] == prefix;
      s
  }

  /** Integer.toString: a '-' before the digits of a negative number. */
  function IntToString(n: int): (s: string)
    ensures |s| > 0
    ensures s[0] == '-' <==> n < 0
    ensures var d := if n < 0 then s[1..] else s;
      && d != [] && AllDigits(d) && DigitsValue(d) == (if n < 0 then -n else n)
      && (|d| > 1 ==> d[0] != '0') && s[0] != '+'
  {
    if n < 0 then "-" + NatToString(-n) else NatToString(n)
  }

  /** Rendering a 32-bit int and parsing it back gives the same int. */
  lemma ParseIntToString(n: int)
    requires InInt32(n)
    ensures ParseInt(IntToString(n)) == Some(n)
  {
    var s := IntToString(n);
    if n < 0 {
      assert s[1..] == NatToString(-n);
    } else {
      assert IsDigit(s[0]);
    }
  }

  /**
   * A numeral: an optional sign p followed by a non-empty run of ASCII digits d,
   * denoting the 32-bit value v.
   */
  predicate Denotes(p: string, d: string, v: int) {
    && (p == "" || p == "+" || p == "-")
    && d != [] && AllDigits(d)
    && v == (if p == "-" then 0 - DigitsValue(d) as int else DigitsValue(d) as int)
    && InInt32(v)
  }

  /** An unsigned in-range numeral parses to its value. */
  lemma ParseIntUnsigned(d: string)
    requires d != [] && AllDigits(d) && InInt32(DigitsValue(d))
    ensures ParseInt(d) == Some(DigitsValue(d) as int)
  {
    assert IsDigit(d[0]);
  }

  /** A signed in-range numeral parses to its value, negated after a minus. */
  lemma ParseIntSigned(sign: char, d: string, v: int)
    requires (sign == '+' || sign == '-') && d != [] && AllDigits(d)
    requires v == (if sign == '-' then 0 - DigitsValue(d) as int else DigitsValue(d) as int) && InInt32(v)
    ensures ParseInt([sign] + d) == Some(v)
  {
    var s := [sign] + d;
    assert s[0] == sign && s[1..] == d;
  }

  /** Every in-range signed numeral is accepted, with the value it denotes. */
  lemma ParseIntAccepts(p: string, d: string, v: int)
    requires Denotes(p, d, v)
    ensures ParseInt(p + d) == Some(v)
  {
    if p == "" {
      assert p + d == d;
      ParseIntUnsigned(d);
    } else {
      assert p == [p[0]];
      ParseIntSigned(p[0], d, v);
    }
  }

  /** What parseInt computes: s parses to v exactly when s is a numeral denoting v. */
  lemma ParseIntMeaning(s: string, v: int)
    ensures ParseInt(s) == Some(v) <==> exists p, d :: s == p + d && Denotes(p, d, v)
  {
    if ParseInt(s) == Some(v) {
      if s[0] == '-' || s[0] == '+' {
        assert s == s[..1] + s[1..] && Denotes(s[..1], s[1..], v);
      } else {
        assert s == "" + s && Denotes("", s, v);
      }
    }
    if exists p, d :: s == p + d && Denotes(p, d, v) {
      var p, d :| s == p + d && Denotes(p, d, v);
      ParseIntAccepts(p, d, v);
    }
  }
}

=== FILE: linked_map.dfy ===
/**
 * An insertion-ordered map from string keys, with the behaviour of
 * java.util.LinkedHashMap that the table mapper relies on: a put of a new key
 * appends it, a put of a present key replaces its value and keeps its position.
 */
module LinkedMaps {

  datatype LinkedMap<V> = LinkedMap(keys: seq<string>, entries: map<string, V>) {

    /** The keys are listed once each, and exactly the keys of the entries are listed. */
    ghost predicate Valid() {
      && (forall i, j :: 0 <= i < j < |keys| ==> keys[i] != keys[j])
      && (forall k :: k in entries <==> k in keys)
    }

    function Put(k: string, v: V): (m: LinkedMap<V>)
      ensures Valid() ==> m.Valid()
      ensures m.entries == entries[k := v]
      ensures k in entries && Valid() ==> m.keys == keys
      ensures k !in entries ==> m.keys == keys + [k]
    {
      if k in entries then LinkedMap(keys, entries[k := v])
      else LinkedMap(keys + [k], entries[k := v])
    }
  }

  function Empty<V>(): (m: LinkedMap<V>)
    ensures m.Valid() && m.keys == [] && m.entries == map[]
  {
    LinkedMap([], map[])
  }

  /** The map that successive puts of the pairs, first to last, build from an empty map. */
  function BuildMap<V>(ps: seq<(string, V)>): (m: LinkedMap<V>)
    ensures m.Valid()
  {
    if ps == [] then Empty()
    else BuildMap(ps[..|ps| - 1]).Put(ps[|ps| - 1].0, ps[|ps| - 1].1)
  }

  function KeysOf<V>(ps: seq<(string, V)>): (ks: seq<string>)
    ensures |ks| == |ps| && forall i :: 0 <= i < |ps| ==> ks[i] == ps[i].0
  {
    seq(|ps|, i requires 0 <= i < |ps| => ps[i].0)
  }

  ghost predicate DistinctKeys<V>(ps: seq<(string, V)>) {
    forall i, j :: 0 <= i < j < |ps| ==> ps[i].0 != ps[j].0
  }

  /** With no key repeated, the map lists the keys in the order of the pairs. */
  lemma {:induction false} BuildMapDistinctKeys<V>(ps: seq<(string, V)>)
    requires DistinctKeys(ps)
    ensures BuildMap(ps).keys == KeysOf(ps)
  {
    if ps != [] {
      var init := ps[..|ps| - 1];
      var last := ps[|ps| - 1];
      assert DistinctKeys(init);
      BuildMapDistinctKeys(init);
      assert last.0 !in KeysOf(init) by {
        forall i | 0 <= i < |init| ensures KeysOf(init)[i] != last.0 {
          assert init[i] == ps[i];
        }
      }
      assert KeysOf(ps) == KeysOf(init) + [last.0];
    }
  }

  /** With no key repeated, every key maps to the value it was put with. */
  lemma BuildMapDistinct<V>(ps: seq<(string, V)>)
    requires DistinctKeys(ps)
    ensures BuildMap(ps).keys == KeysOf(ps)
    ensures forall i :: 0 <= i < |ps| ==> BuildMap(ps).entries[ps[i].0] == ps[i].1
  {
    BuildMapDistinctKeys(ps);
    forall i | 0 <= i < |ps| ensures BuildMap(ps).entries[ps[i].0] == ps[i].1 {
      BuildMapLastWins(ps, i);
    }
  }

  /** A repeated key holds the value of its last put. */
  lemma {:induction false} BuildMapLastWins<V>(ps: seq<(string, V)>, i: nat)
    requires i < |ps|
    requires forall j :: i < j < |ps| ==> ps[j].0 != ps[i].0
    ensures ps[i].0 in BuildMap(ps).entries && BuildMap(ps).entries[ps[i].0] == ps[i].1
  {
    if i < |ps| - 1 {
      var init := ps[..|ps| - 1];
      assert init[i] == ps[i];
      BuildMapLastWins(init, i);
    }
  }
}

=== FILE: schema.dfy ===
/**
 * The explicit model descriptors that replace reflection over a model class, and
 * the pure parts of the table mapper: which fields are columns, what each column
 * is called, the SQL type text synthesised for it, and the first identity field.
 */
module Schema {
  import opened Wrappers
  import opened Decimal

  /** A loosely typed scalar as it travels in a row or sits in a model field. */
  datatype Value =
    | IntV(i: int)
    | StrV(s: string)
    | BoolV(b: bool)
    | DoubleV(bits: int)    // opaque: no floating-point arithmetic is modelled
    | FloatV(bits: int)     // opaque
    | DateV(millis: int)    // opaque
    | Null

  /** The declared Java type of a field. */
  datatype Kind =
    | StringKind            // String
    | IntKind               // int
    | DoubleKind            // double
    | FloatKind             // float
    | BooleanKind           // boolean
    | BoxedBooleanKind      // Boolean
    | DateKind              // java.util.Date
    | OtherKind(simpleName: string)

  /** The attributes of a column annotation. */
  datatype Column = Column(
    name: string,
    sqlType: string,
    text: bool,
    length: int,
    nullable: bool,
    primaryKey: bool,
    unique: bool,
    def: string)

  /**
   * One declared field: its name, its type, its column annotation if it has one,
   * whether it carries the identity marker, and the value the model's no-argument
   * constructor leaves in it.
   */
  datatype Field = Field(name: string, kind: Kind, column: Option<Column>, isId: bool, initial: Value)

  /** A field that carries a column annotation, with that annotation. */
  datatype ColumnField = ColumnField(field: Field, column: Column)

  function SimpleName(k: Kind): string {
    match k
    case StringKind => "String"
    case IntKind => "int"
    case DoubleKind => "double"
    case FloatKind => "float"
    case BooleanKind => "boolean"
    case BoxedBooleanKind => "Boolean"
    case DateKind => "Date"
    case OtherKind(n) => n
  }

  predicate IsBoolean(k: Kind) { k == BooleanKind || k == BoxedBooleanKind }

  // ---------------------------------------------------------------------------
  // Column selection and naming

  /** The annotated fields, in declaration order, each with its annotation. */
  function ColumnFields(fs: seq<Field>): (cfs: seq<ColumnField>)
    ensures |cfs| <= |fs|
    ensures forall i :: 0 <= i < |cfs| ==> cfs[i].field in fs && cfs[i].field.column == Some(cfs[i].column)
    ensures forall f :: f in fs && f.column.Some? ==> ColumnField(f, f.column.value) in cfs
  {
    if fs == [] then []
    else
      var last := fs[|fs| - 1];
      var init := fs[..|fs| - 1];
      assert forall f :: f in fs ==> f in init || f == last;
      ColumnFields(init) + if last.column.Some? then [ColumnField(last, last.column.value)] else []
  }

  /** Selection keeps declaration order: the columns of a concatenation are the concatenated columns. */
  lemma {:induction false} ColumnFieldsAppend(a: seq<Field>, b: seq<Field>)
    ensures ColumnFields(a + b) == ColumnFields(a) + ColumnFields(b)
  {
    if b != [] {
      var b' := b[..|b| - 1];
      assert (a + b)[..|a + b| - 1] == a + b';
      assert (a + b)[|a + b| - 1] == b[|b| - 1];
      ColumnFieldsAppend(a, b');
    } else {
      assert a + b == a;
    }
  }

  /** A model with no annotated field has no columns. */
  lemma {:induction false} ColumnFieldsEmpty(fs: seq<Field>)
    ensures ColumnFields(fs) == [] <==> forall i :: 0 <= i < |fs| ==> fs[i].column.None?
  {
    if fs != [] {
      ColumnFieldsEmpty(fs[..|fs| - 1]);
    }
  }

  /** No two fields share a name, as in any Java class. */
  ghost predicate DistinctFieldNames(fs: seq<Field>) {
    forall i, j :: 0 <= i < j < |fs| ==> fs[i].name != fs[j].name
  }

  /** Selection keeps distinct field names distinct. */
  lemma {:induction false} ColumnFieldsDistinct(fs: seq<Field>)
    requires DistinctFieldNames(fs)
    ensures forall i, j :: 0 <= i < j < |ColumnFields(fs)| ==> ColumnFields(fs)[i].field.name != ColumnFields(fs)[j].field.name
  {
    if fs != [] {
      var init := fs[..|fs| - 1];
      var last := fs[|fs| - 1];
      assert DistinctFieldNames(init);
      ColumnFieldsDistinct(init);
      forall f | f in init ensures f.name != last.name {
        var k :| 0 <= k < |init| && init[k] == f;
        assert fs[k] == f;
      }
    }
  }

  /** The annotation's name when it is non-empty, the field's own name otherwise. */
  function ColumnName(f: Field, c: Column): (n: string)
    ensures c.name != "" ==> n == c.name
    ensures c.name == "" ==> n == f.name
  {
    if |c.name| == 0 then f.name else c.name
  }

  function ColumnNameOf(cf: ColumnField): string {
    ColumnName(cf.field, cf.column)
  }

  /** No two columns share a name. */
  ghost predicate DistinctColumnNames(cfs: seq<ColumnField>) {
    forall i, j :: 0 <= i < j < |cfs| ==> ColumnNameOf(cfs[i]) != ColumnNameOf(cfs[j])
  }

  // ---------------------------------------------------------------------------
  // Type synthesis

  /** The SQL type inferred from the field's type alone, or None for an unsupported type. */
  function BaseType(k: Kind, c: Column): (r: Option<string>)
    ensures r.None? <==> k.BoxedBooleanKind? || k.OtherKind?
  {
    match k
    case StringKind =>
      if c.text then Some("TEXT")
      else Some("VARCHAR(" + IntToString(if c.length < 0 then 255 else c.length) + ")")
    case IntKind => Some("INT")
    case DoubleKind => Some("DOUBLE")
    case FloatKind => Some("FLOAT")
    case BooleanKind => Some("TINYINT")
    case DateKind => Some("DATETIME")
    case _ => None
  }

  /** The DEFAULT clause: a 32-bit integer rendered normalised, anything else quoted. */
  function DefaultClause(def: string): (r: string)
    ensures ParseInt(def).Some? ==> r == "DEFAULT " + IntToString(ParseInt(def).value)
    ensures ParseInt(def).None? ==> r == "DEFAULT '" + def + "'"
  {
    match ParseInt(def)
    case Some(v) => "DEFAULT " + IntToString(v)
    case None => "DEFAULT '" + def + "'"
  }

  /** The constraint tokens a column type may carry. */
  datatype Modifier = AutoIncrement | NotNull | PrimaryKey | Unique | Default(clause: string)

  function Token(m: Modifier): string {
    match m
    case AutoIncrement => "AUTO_INCREMENT"
    case NotNull => "NOT NULL"
    case PrimaryKey => "PRIMARY KEY"
    case Unique => "UNIQUE"
    case Default(clause) => clause
  }

  /** Position of a modifier in the fixed order. */
  function Rank(m: Modifier): nat {
    match m
    case AutoIncrement => 0
    case NotNull => 1
    case PrimaryKey => 2
    case Unique => 3
    case Default(_) => 4
  }

  /** Modifiers listed in strictly increasing rank: each kind at most once, in the fixed order. */
  predicate Ranked(r: seq<Modifier>) {
    forall i, j :: 0 <= i < j < |r| ==> Rank(r[i]) < Rank(r[j])
  }

  /** Appends a modifier when its condition holds. */
  function AddIf(r: seq<Modifier>, cond: bool, m: Modifier): seq<Modifier> {
    if cond then r + [m] else r
  }

  /** The modifiers of a column, each added under its own condition, in the fixed order. */
  function Modifiers(f: Field, c: Column): (r: seq<Modifier>)
    ensures r == [] <==> !f.isId && c.nullable && !c.primaryKey && !c.unique && c.def == ""
  {
    var r0 := AddIf([], f.isId, AutoIncrement);
    var r1 := AddIf(r0, !c.nullable || f.isId, NotNull);
    var r2 := AddIf(r1, c.primaryKey || f.isId, PrimaryKey);
    var r3 := AddIf(r2, c.unique, Unique);
    AddIf(r3, |c.def| > 0, Default(DefaultClause(c.def)))
  }

  /** Adding a modifier of a higher rank than all present keeps the list ranked. */
  lemma AddIfRanked(r: seq<Modifier>, cond: bool, m: Modifier)
    requires Ranked(r) && forall i :: 0 <= i < |r| ==> Rank(r[i]) < Rank(m)
    ensures Ranked(AddIf(r, cond, m))
    ensures forall i :: 0 <= i < |AddIf(r, cond, m)| ==> Rank(AddIf(r, cond, m)[i]) <= Rank(m)
  {
  }

  /** Each modifier kind appears at most once, and all appear in the fixed order. */
  lemma {:induction false} ModifiersRanked(f: Field, c: Column)
    ensures Ranked(Modifiers(f, c))
  {
    var r0 := AddIf([], f.isId, AutoIncrement);
    AddIfRanked([], f.isId, AutoIncrement);
    var r1 := AddIf(r0, !c.nullable || f.isId, NotNull);
    AddIfRanked(r0, !c.nullable || f.isId, NotNull);
    var r2 := AddIf(r1, c.primaryKey || f.isId, PrimaryKey);
    AddIfRanked(r1, c.primaryKey || f.isId, PrimaryKey);
    var r3 := AddIf(r2, c.unique, Unique);
    AddIfRanked(r2, c.unique, Unique);
    AddIfRanked(r3, |c.def| > 0, Default(DefaultClause(c.def)));
  }

  /** A modifier is in the extended list when it was before or is the one added. */
  lemma AddIfIn(r: seq<Modifier>, cond: bool, m: Modifier, x: Modifier)
    ensures x in AddIf(r, cond, m) <==> x in r || (cond && x == m)
  {
    if cond {
      assert r + [m] == AddIf(r, cond, m);
      if x in r {
        var i :| 0 <= i < |r| && r[i] == x;
        assert (r + [m])[i] == x;
      }
      assert (r + [m])[|r|] == m;
    }
  }

  /** A modifier is in the five-step list exactly when one of the steps adding it fires. */
  lemma ModifierIn(f: Field, c: Column, x: Modifier)
    ensures x in Modifiers(f, c) <==>
      || (f.isId && x == AutoIncrement)
      || ((!c.nullable || f.isId) && x == NotNull)
      || ((c.primaryKey || f.isId) && x == PrimaryKey)
      || (c.unique && x == Unique)
      || (|c.def| > 0 && x == Default(DefaultClause(c.def)))
  {
    var r0 := AddIf([], f.isId, AutoIncrement);
    var r1 := AddIf(r0, !c.nullable || f.isId, NotNull);
    var r2 := AddIf(r1, c.primaryKey || f.isId, PrimaryKey);
    var r3 := AddIf(r2, c.unique, Unique);
    AddIfIn([], f.isId, AutoIncrement, x);
    AddIfIn(r0, !c.nullable || f.isId, NotNull, x);
    AddIfIn(r1, c.primaryKey || f.isId, PrimaryKey, x);
    AddIfIn(r2, c.unique, Unique, x);
    AddIfIn(r3, |c.def| > 0, Default(DefaultClause(c.def)), x);
  }

  /** Each modifier is present exactly when its condition holds. */
  lemma ModifiersPresent(f: Field, c: Column)
    ensures var r := Modifiers(f, c);
      && (AutoIncrement in r <==> f.isId)
      && (NotNull in r <==> !c.nullable || f.isId)
      && (PrimaryKey in r <==> c.primaryKey || f.isId)
      && (Unique in r <==> c.unique)
      && (forall s :: Default(s) in r <==> c.def != "" && s == DefaultClause(c.def))
  {
    ModifierIn(f, c, AutoIncrement);
    ModifierIn(f, c, NotNull);
    ModifierIn(f, c, PrimaryKey);
    ModifierIn(f, c, Unique);
    forall s ensures Default(s) in Modifiers(f, c) <==> c.def != "" && s == DefaultClause(c.def) {
      ModifierIn(f, c, Default(s));
    }
  }

  function Tokens(ms: seq<Modifier>): (ts: seq<string>)
    ensures |ts| == |ms| && forall i :: 0 <= i < |ms| ==> ts[i] == Token(ms[i])
  {
    seq(|ms|, i requires 0 <= i < |ms| => Token(ms[i]))
  }

  lemma TokensSnoc(ms: seq<Modifier>, m: Modifier)
    ensures Tokens(ms + [m]) == Tokens(ms) + [Token(m)]
  {
  }

  /** Every modifier of a column has a non-empty token. */
  lemma ModifierTokensNonEmpty(f: Field, c: Column)
    ensures forall m :: m in Modifiers(f, c) ==> Token(m) != ""
  {
    forall m | m in Modifiers(f, c) ensures Token(m) != "" {
      ModifierIn(f, c, m);
    }
  }

  /** The text getColumnModifiers returns: the modifier tokens joined by single spaces. */
  function ModifierText(f: Field, c: Column): (r: string)
    ensures r == "" <==> Modifiers(f, c) == []
  {
    var ms := Modifiers(f, c);
    ModifierTokensNonEmpty(f, c);
    JoinEmpty(" ", Tokens(ms));
    Join(" ", Tokens(ms))
  }

  /** String.join: the parts with the separator between each two. */
  function Join(sep: string, parts: seq<string>): (r: string)
    ensures parts == [] ==> r == ""
    ensures |parts| == 1 ==> r == parts[0]
  {
    if parts == [] then ""
    else if |parts| == 1 then parts[0]
    else Join(sep, parts[..|parts| - 1]) + sep + parts[|parts| - 1]
  }

  /** A join of non-empty parts is empty exactly when there are no parts. */
  lemma {:induction false} JoinEmpty(sep: string, parts: seq<string>)
    requires forall i :: 0 <= i < |parts| ==> parts[i] != ""
    ensures Join(sep, parts) == "" <==> parts == []
  {
    if |parts| > 1 {
      var r := Join(sep, parts);
      assert |r| >= |parts[|parts| - 1]|;
    }
  }

  /** Joining one more part appends the separator and that part. */
  lemma JoinSnoc(sep: string, parts: seq<string>, p: string)
    requires parts != []
    ensures Join(sep, parts + [p]) == Join(sep, parts) + sep + p
  {
    assert (parts + [p])[..|parts|] == parts;
  }

  predicate Supported(k: Kind) { !(k.BoxedBooleanKind? || k.OtherKind?) }

  /**
   * The type text of a column: a non-empty explicit type verbatim; otherwise the
   * inferred base type, one space, and the space-joined modifiers; Failure with the
   * message of the exception for a type with no mapping.
   */
  function ColumnType(f: Field, c: Column): (r: Result<string, string>)
    ensures c.sqlType != "" ==> r == Success(c.sqlType)
    ensures r.Failure? <==> c.sqlType == "" && !Supported(f.kind)
    ensures r.Failure? ==> r.error == SimpleName(f.kind) + " is not supported."
    ensures c.sqlType == "" && Supported(f.kind) ==> r == Success(BaseType(f.kind, c).value + " " + ModifierText(f, c))
  {
    if |c.sqlType| != 0 then Success(c.sqlType)
    else
      match BaseType(f.kind, c)
      case None => Failure(SimpleName(f.kind) + " is not supported.")
      case Some(base) => Success(base + " " + ModifierText(f, c))
  }

  function ColumnTypeOf(cf: ColumnField): Result<string, string> {
    ColumnType(cf.field, cf.column)
  }

  /**
   * Any in-range signed numeral, whatever its sign or leading zeros, renders as the
   * canonical text of its value, the same clause that canonical text renders as.
   */
  lemma DefaultNumeral(p: string, d: string, v: int)
    requires Denotes(p, d, v)
    ensures DefaultClause(p + d) == "DEFAULT " + IntToString(v)
    ensures DefaultClause(IntToString(v)) == DefaultClause(p + d)
  {
    ParseIntAccepts(p, d, v);
    ParseIntToString(v);
  }

  /** Anything that is not an in-range signed numeral is quoted verbatim. */
  lemma DefaultNotNumeral(def: string)
    requires forall p, d, v :: def == p + d ==> !Denotes(p, d, v)
    ensures DefaultClause(def) == "DEFAULT '" + def + "'"
  {
    if ParseInt(def).Some? {
      ParseIntMeaning(def, ParseInt(def).value);
      assert false;
    }
  }

  /** A bounded string column reads back its length: the digits inside VARCHAR(...) parse to it. */
  lemma VarcharLength(f: Field, c: Column)
    requires f.kind == StringKind && c.sqlType == "" && !c.text && InInt32(c.length)
    ensures var n := if c.length < 0 then 255 else c.length;
      && ColumnType(f, c) == Success("VARCHAR(" + IntToString(n) + ")" + " " + ModifierText(f, c))
      && ParseInt(IntToString(n)) == Some(n)
  {
    ParseIntToString(if c.length < 0 then 255 else c.length);
  }

  /** Leading zeros are dropped from a numeric default. */
  lemma DefaultLeadingZeros()
    ensures DefaultClause("007") == "DEFAULT 7"
  {
    assert "007"[..2] == "00" && "00"[..1] == "0";
    assert DigitsValue("007") == 7;
  }

  /** A negative numeric default keeps its sign. */
  lemma DefaultNegative()
    ensures DefaultClause("-12") == "DEFAULT -12"
  {
    assert "-12"[1..] == "12" && "12"[..1] == "1";
    assert DigitsValue("12") == 12;
  }

  /** A number that is not an integer is quoted. */
  lemma DefaultDecimalQuoted()
    ensures DefaultClause("1.5") == "DEFAULT '1.5'"
  {
    assert !IsDigit("1.5"[1]);
  }

  /** The value of the first five digits of 2^31, one digit at a time. */
  lemma DigitsOfTwoPow31Head()
    ensures AllDigits("21474") && DigitsValue("21474") == 21474
  {
    assert DigitsValue("2") == 2;
    assert "21"[..1] == "2";
    assert DigitsValue("21") == 21;
    assert "214"[..2] == "21";
    assert DigitsValue("214") == 214;
    assert "2147"[..3] == "214";
    assert DigitsValue("2147") == 2147;
    assert "21474"[..4] == "2147";
  }

  /** The value of the ten digits of 2^31, continuing from the first five. */
  lemma DigitsOfTwoPow31()
    ensures AllDigits("2147483648") && DigitsValue("2147483648") == 2147483648
  {
    DigitsOfTwoPow31Head();
    assert "214748"[..5] == "21474";
    assert DigitsValue("214748") == 214748;
    assert "2147483"[..6] == "214748";
    assert DigitsValue("2147483") == 2147483;
    assert "21474836"[..7] == "2147483";
    assert DigitsValue("21474836") == 21474836;
    assert "214748364"[..8] == "21474836";
    assert DigitsValue("214748364") == 214748364;
    assert "2147483648"[..9] == "214748364";
  }

  /** An integer outside the 32-bit range is quoted. */
  lemma DefaultOutOfRangeQuoted()
    ensures DefaultClause("2147483648") == "DEFAULT '2147483648'"
  {
    DigitsOfTwoPow31();
    assert ParseInt("2147483648") == None;
  }

  /** A string column with no length (negative) is VARCHAR(255); with length 50 it is VARCHAR(50). */
  lemma VarcharExamples(f: Field, c: Column)
    requires f.kind == StringKind && c.sqlType == "" && !c.text
    requires !f.isId && c.nullable && !c.primaryKey && !c.unique && c.def == ""
    ensures c.length < 0 ==> ColumnType(f, c) == Success("VARCHAR(255) ")
    ensures c.length == 50 ==> ColumnType(f, c) == Success("VARCHAR(50) ")
  {
    assert Modifiers(f, c) == [];
    assert ModifierText(f, c) == "";
    if c.length < 0 {
      assert NatToString(25) == "25";
      assert IntToString(255) == "255";
      assert "VARCHAR(" + "255" + ")" + " " + "" == "VARCHAR(255) ";
    } else if c.length == 50 {
      assert IntToString(50) == "50";
      assert "VARCHAR(" + "50" + ")" + " " + "" == "VARCHAR(50) ";
    }
  }

  /** An inferred type with no modifiers keeps the space after the base type. */
  lemma TrailingSpace(f: Field, c: Column)
    requires f.kind == IntKind && c.sqlType == ""
    requires !f.isId && c.nullable && !c.primaryKey && !c.unique && c.def == ""
    ensures ColumnType(f, c) == Success("INT ")
  {
    assert Modifiers(f, c) == [];
    assert ModifierText(f, c) == "";
    assert "INT" + " " + "" == "INT ";
  }

  /** An identity field that is also unique and has default "x" carries every modifier, in order. */
  lemma IdentityModifierList(f: Field, c: Column)
    requires f.isId && c.unique && c.def == "x"
    ensures Modifiers(f, c) == [AutoIncrement, NotNull, PrimaryKey, Unique, Default("DEFAULT 'x'")]
  {
    assert ParseInt("x") == None by { assert !IsDigit("x"[0]); }
    assert "DEFAULT '" + "x" + "'" == "DEFAULT 'x'";
  }

  /** The tokens of that field's modifiers. */
  lemma IdentityTokens(f: Field, c: Column)
    requires f.isId && c.unique && c.def == "x"
    ensures Tokens(Modifiers(f, c)) == ["AUTO_INCREMENT", "NOT NULL", "PRIMARY KEY", "UNIQUE", "DEFAULT 'x'"]
  {
    IdentityModifierList(f, c);
    var ms := Modifiers(f, c);
    assert Token(ms[0]) == "AUTO_INCREMENT" && Token(ms[1]) == "NOT NULL" && Token(ms[2]) == "PRIMARY KEY";
    assert Token(ms[3]) == "UNIQUE" && Token(ms[4]) == "DEFAULT 'x'";
  }

  /** Joining the first three tokens, one at a time. */
  lemma JoinFirstThree()
    ensures Join(" ", ["AUTO_INCREMENT", "NOT NULL", "PRIMARY KEY"]) == "AUTO_INCREMENT NOT NULL PRIMARY KEY"
  {
    var t1 := ["AUTO_INCREMENT"];
    JoinSnoc(" ", t1, "NOT NULL");
    assert t1 + ["NOT NULL"] == ["AUTO_INCREMENT", "NOT NULL"];
    assert "AUTO_INCREMENT" + " " + "NOT NULL" == "AUTO_INCREMENT NOT NULL";
    JoinSnoc(" ", ["AUTO_INCREMENT", "NOT NULL"], "PRIMARY KEY");
    assert ["AUTO_INCREMENT", "NOT NULL"] + ["PRIMARY KEY"] == ["AUTO_INCREMENT", "NOT NULL", "PRIMARY KEY"];
    assert "AUTO_INCREMENT NOT NULL" + " " + "PRIMARY KEY" == "AUTO_INCREMENT NOT NULL PRIMARY KEY";
  }

  /** Joining all five tokens, continuing from the first three. */
  lemma JoinIdentityTokens()
    ensures Join(" ", ["AUTO_INCREMENT", "NOT NULL", "PRIMARY KEY", "UNIQUE", "DEFAULT 'x'"])
      == "AUTO_INCREMENT NOT NULL PRIMARY KEY UNIQUE DEFAULT 'x'"
  {
    var t3 := ["AUTO_INCREMENT", "NOT NULL", "PRIMARY KEY"];
    var t4 := t3 + ["UNIQUE"];
    JoinFirstThree();
    JoinSnoc(" ", t3, "UNIQUE");
    assert "AUTO_INCREMENT NOT NULL PRIMARY KEY" + " " + "UNIQUE" == "AUTO_INCREMENT NOT NULL PRIMARY KEY UNIQUE";
    JoinSnoc(" ", t4, "DEFAULT 'x'");
    assert t4 + ["DEFAULT 'x'"] == ["AUTO_INCREMENT", "NOT NULL", "PRIMARY KEY", "UNIQUE", "DEFAULT 'x'"];
    assert "AUTO_INCREMENT NOT NULL PRIMARY KEY UNIQUE" + " " + "DEFAULT 'x'"
      == "AUTO_INCREMENT NOT NULL PRIMARY KEY UNIQUE DEFAULT 'x'";
  }

  /** The same modifiers as text: the type string of such a field ends exactly so. */
  lemma IdentityModifiers(f: Field, c: Column)
    requires f.isId && c.unique && c.def == "x"
    ensures ModifierText(f, c) == "AUTO_INCREMENT NOT NULL PRIMARY KEY UNIQUE DEFAULT 'x'"
  {
    IdentityTokens(f, c);
    JoinIdentityTokens();
  }

  /** The Boolean wrapper has no SQL type: synthesis fails and names it. */
  lemma BoxedBooleanUnsupported(f: Field, c: Column)
    requires f.kind == BoxedBooleanKind && c.sqlType == ""
    ensures ColumnType(f, c) == Failure("Boolean is not supported.")
  {
    assert "Boolean" + " is not supported." == "Boolean is not supported.";
  }

  // ---------------------------------------------------------------------------
  // Identity field and boolean coercion

  /** The position of the first identity field among the columns, if any. */
  function IdIndex(cfs: seq<ColumnField>): (r: Option<nat>)
    ensures r.Some? ==> r.value < |cfs| && cfs[r.value].field.isId
    ensures r.Some? ==> forall j :: 0 <= j < r.value ==> !cfs[j].field.isId
    ensures r.None? <==> forall j :: 0 <= j < |cfs| ==> !cfs[j].field.isId
  {
    if cfs == [] then None
    else if cfs[0].field.isId then Some(0)
    else
      match IdIndex(cfs[1..])
      case None => None
      case Some(i) => Some(i + 1)
  }

  /** How a boolean field reads a row value: true only for the integer 1 and the string "true". */
  function Truthy(v: Value): (b: bool)
    ensures b <==> v == IntV(1) || v == StrV("true")
  {
    v != Null && (v == IntV(1) || v == StrV("true"))
  }
}

=== FILE: tables.dfy ===
/**
 * The table binding of a model class: schema creation, marshalling an instance to
 * a row, unmarshalling a row to a fresh instance, and writing a generated key back.
 * Each imperative operation is a method of Table proved against a specification
 * function below; the lemmas state what those functions promise.
 */
module Tables {
  import opened Wrappers
  import opened Decimal
  import opened LinkedMaps
  import opened Schema

  /** A row: column names to values, in insertion order. */
  type Row = LinkedMap<Value>

  /**
   * A model class: its simple name, its declared fields in declaration order, and
   * whether its no-argument constructor can be called.
   */
  datatype Model = Model(simpleName: string, fields: seq<Field>, instantiable: bool)

  /** The arguments the mapper hands to the database's createTable. */
  datatype CreateTableCall = CreateTableCall(table: string, columns: LinkedMap<string>)

  /** Every declared field has a slot in the instance. */
  predicate Conforms(fs: seq<Field>, values: map<string, Value>) {
    forall f :: f in fs ==> f.name in values
  }

  predicate HasFields(cfs: seq<ColumnField>, values: map<string, Value>) {
    forall i :: 0 <= i < |cfs| ==> cfs[i].field.name in values
  }

  /** Whether a value can be stored in a field of the given type without a type mismatch. */
  predicate Fits(k: Kind, v: Value) {
    v == Null ||
    match k
    case StringKind => v.StrV?
    case IntKind => v.IntV? && InInt32(v.i)
    case DoubleKind => v.DoubleV?
    case FloatKind => v.FloatV?
    case BooleanKind => v.BoolV?
    case BoxedBooleanKind => v.BoolV?
    case DateKind => v.DateV?
    case OtherKind(_) => true
  }

  // ---------------------------------------------------------------------------
  // Schema creation

  /** The column map createTable receives, or the message of the first type synthesis failure. */
  function CreateSpec(cfs: seq<ColumnField>): (r: Result<LinkedMap<string>, string>)
    ensures r.Success? ==> r.value.Valid()
  {
    if cfs == [] then Success(Empty())
    else
      match CreateSpec(cfs[..|cfs| - 1])
      case Failure(e) => Failure(e)
      case Success(m) =>
        match ColumnTypeOf(cfs[|cfs| - 1])
        case Failure(e) => Failure(e)
        case Success(t) => Success(m.Put(ColumnNameOf(cfs[|cfs| - 1]), t))
  }

  /** A failure among the first k columns is the failure of the whole. */
  lemma {:induction false} CreateFailurePrefix(cfs: seq<ColumnField>, k: nat)
    requires k <= |cfs| && CreateSpec(cfs[..k]).Failure?
    ensures CreateSpec(cfs) == CreateSpec(cfs[..k])
    decreases |cfs| - k
  {
    if k < |cfs| {
      assert cfs[..k + 1][..k] == cfs[..k];
      CreateFailurePrefix(cfs, k + 1);
    } else {
      assert cfs[..k] == cfs;
    }
  }

  /** Creation fails with the message of the first column whose type cannot be synthesised. */
  lemma {:induction false} CreateFailsAtFirst(cfs: seq<ColumnField>, i: nat)
    requires i < |cfs| && ColumnTypeOf(cfs[i]).Failure?
    requires forall j :: 0 <= j < i ==> ColumnTypeOf(cfs[j]).Success?
    ensures CreateSpec(cfs) == Failure(ColumnTypeOf(cfs[i]).error)
  {
    CreatePrefixSucceeds(cfs[..i]);
    assert cfs[..i + 1][..i] == cfs[..i];
    CreateFailurePrefix(cfs, i + 1);
  }

  /** With every column type synthesised, creation succeeds. */
  lemma {:induction false} CreatePrefixSucceeds(cfs: seq<ColumnField>)
    requires forall j :: 0 <= j < |cfs| ==> ColumnTypeOf(cfs[j]).Success?
    ensures CreateSpec(cfs).Success?
  {
    if cfs != [] {
      CreatePrefixSucceeds(cfs[..|cfs| - 1]);
    }
  }

  /** All or nothing: creation fails exactly when some column's type synthesis fails. */
  lemma CreateAllOrNothing(cfs: seq<ColumnField>)
    ensures CreateSpec(cfs).Failure? <==> exists i :: 0 <= i < |cfs| && ColumnTypeOf(cfs[i]).Failure?
  {
    if exists i :: 0 <= i < |cfs| && ColumnTypeOf(cfs[i]).Failure? {
      var i := FirstFailure(cfs);
      CreateFailsAtFirst(cfs, i);
    } else {
      CreatePrefixSucceeds(cfs);
    }
  }

  function FirstFailure(cfs: seq<ColumnField>): (i: nat)
    requires exists i :: 0 <= i < |cfs| && ColumnTypeOf(cfs[i]).Failure?
    ensures i < |cfs| && ColumnTypeOf(cfs[i]).Failure?
    ensures forall j :: 0 <= j < i ==> ColumnTypeOf(cfs[j]).Success?
  {
    if ColumnTypeOf(cfs[0]).Failure? then 0
    else
      assert exists i :: 0 <= i < |cfs[1..]| && ColumnTypeOf(cfs[1..][i]).Failure? by {
        var i :| 0 <= i < |cfs| && ColumnTypeOf(cfs[i]).Failure?;
        assert cfs[1..][i - 1] == cfs[i];
      }
      FirstFailure(cfs[1..]) + 1
  }

  /** The column names of the annotated fields, in declaration order. */
  function ColumnNames(cfs: seq<ColumnField>): (ns: seq<string>)
    ensures |ns| == |cfs| && forall i :: 0 <= i < |cfs| ==> ns[i] == ColumnNameOf(cfs[i])
  {
    seq(|cfs|, i requires 0 <= i < |cfs| => ColumnNameOf(cfs[i]))
  }

  /** The (column name, type) pairs of columns whose types are all synthesised. */
  function TypePairs(cfs: seq<ColumnField>): (ps: seq<(string, string)>)
    requires forall j :: 0 <= j < |cfs| ==> ColumnTypeOf(cfs[j]).Success?
    ensures |ps| == |cfs|
    ensures forall i :: 0 <= i < |cfs| ==> ps[i] == (ColumnNameOf(cfs[i]), ColumnTypeOf(cfs[i]).value)
  {
    seq(|cfs|, i requires 0 <= i < |cfs| => (ColumnNameOf(cfs[i]), ColumnTypeOf(cfs[i]).value))
  }

  /** A successful creation puts every column's name and type, in declaration order. */
  lemma {:induction false} CreateIsBuildMap(cfs: seq<ColumnField>)
    requires forall j :: 0 <= j < |cfs| ==> ColumnTypeOf(cfs[j]).Success?
    ensures CreateSpec(cfs) == Success(BuildMap(TypePairs(cfs)))
  {
    if cfs != [] {
      var init := cfs[..|cfs| - 1];
      CreateIsBuildMap(init);
      assert TypePairs(cfs)[..|cfs| - 1] == TypePairs(init);
    }
  }

  /** With distinct column names, a successful creation lists every column in order with its type. */
  lemma CreateColumnsInOrder(cfs: seq<ColumnField>)
    requires DistinctColumnNames(cfs)
    requires CreateSpec(cfs).Success?
    ensures CreateSpec(cfs).value.keys == ColumnNames(cfs)
    ensures forall i :: 0 <= i < |cfs| ==>
      ColumnTypeOf(cfs[i]).Success? && CreateSpec(cfs).value.entries[ColumnNameOf(cfs[i])] == ColumnTypeOf(cfs[i]).value
  {
    CreateAllOrNothing(cfs);
    CreateIsBuildMap(cfs);
    var ps := TypePairs(cfs);
    assert DistinctKeys(ps);
    BuildMapDistinct(ps);
    assert KeysOf(ps) == ColumnNames(cfs);
  }

  /** A model with no annotated field creates a table with no columns. */
  lemma NoColumnsEmptyTable(fs: seq<Field>)
    requires forall i :: 0 <= i < |fs| ==> fs[i].column.None?
    ensures CreateSpec(ColumnFields(fs)) == Success(Empty())
  {
    ColumnFieldsEmpty(fs);
  }

  // ---------------------------------------------------------------------------
  // Instance to row

  /** The (column name, current value) pairs of the write-set: every column except the identity fields. */
  function WritePairs(cfs: seq<ColumnField>, values: map<string, Value>): (ps: seq<(string, Value)>)
    requires HasFields(cfs, values)
    ensures |ps| == |NonIdNames(cfs)| && forall k :: 0 <= k < |ps| ==> ps[k].0 == NonIdNames(cfs)[k]
  {
    if cfs == [] then []
    else
      var last := cfs[|cfs| - 1];
      assert cfs == cfs[..|cfs| - 1] + [last];
      NonIdNamesSnoc(cfs[..|cfs| - 1], last);
      WritePairs(cfs[..|cfs| - 1], values)
      + if last.field.isId then [] else [(ColumnNameOf(last), values[last.field.name])]
  }

  /** The names of the non-identity columns, in declaration order. */
  function NonIdNames(cfs: seq<ColumnField>): seq<string> {
    if cfs == [] then []
    else (if cfs[0].field.isId then [] else [ColumnNameOf(cfs[0])]) + NonIdNames(cfs[1..])
  }

  lemma {:induction false} NonIdNamesSnoc(cfs: seq<ColumnField>, cf: ColumnField)
    ensures NonIdNames(cfs + [cf]) == NonIdNames(cfs) + (if cf.field.isId then [] else [ColumnNameOf(cf)])
  {
    if cfs == [] {
      assert [cf][1..] == [];
    } else {
      assert (cfs + [cf])[1..] == cfs[1..] + [cf];
      NonIdNamesSnoc(cfs[1..], cf);
    }
  }

  /** The row of an instance is the row of the columns before the last, with the last put unless it is an identity column. */
  lemma WriteRowSnoc(cfs: seq<ColumnField>, values: map<string, Value>)
    requires HasFields(cfs, values) && cfs != []
    ensures var last := cfs[|cfs| - 1];
      var prev := BuildMap(WritePairs(cfs[..|cfs| - 1], values));
      BuildMap(WritePairs(cfs, values)) == if last.field.isId then prev else prev.Put(ColumnNameOf(last), values[last.field.name])
  {
    var init := cfs[..|cfs| - 1];
    var last := cfs[|cfs| - 1];
    var ps := WritePairs(cfs, values);
    if !last.field.isId {
      assert ps == WritePairs(init, values) + [(ColumnNameOf(last), values[last.field.name])];
      assert ps[..|ps| - 1] == WritePairs(init, values);
    } else {
      assert ps == WritePairs(init, values);
    }
  }

  /** With distinct column names, a column is among the non-identity names exactly when it is not an identity column. */
  lemma {:induction false} NonIdNamesMember(cfs: seq<ColumnField>, i: nat)
    requires DistinctColumnNames(cfs) && i < |cfs|
    ensures ColumnNameOf(cfs[i]) in NonIdNames(cfs) <==> !cfs[i].field.isId
  {
    var tail := cfs[1..];
    assert forall j :: 0 <= j < |tail| ==> tail[j] == cfs[j + 1];
    if i == 0 {
      NonIdNamesExclude(tail, ColumnNameOf(cfs[0]));
    } else {
      assert DistinctColumnNames(tail);
      NonIdNamesMember(tail, i - 1);
    }
  }

  /** With distinct column names, a column appears in the row of an instance exactly when it is not an identity column. */
  lemma WriteRowMembership(cfs: seq<ColumnField>, values: map<string, Value>)
    requires HasFields(cfs, values) && DistinctColumnNames(cfs)
    ensures forall i :: 0 <= i < |cfs| ==>
      (ColumnNameOf(cfs[i]) in BuildMap(WritePairs(cfs, values)).entries <==> !cfs[i].field.isId)
  {
    WriteRowKeys(cfs, values);
    forall i | 0 <= i < |cfs|
      ensures ColumnNameOf(cfs[i]) in BuildMap(WritePairs(cfs, values)).entries <==> !cfs[i].field.isId
    {
      NonIdNamesMember(cfs, i);
    }
  }

  /** With distinct column names, the row of an instance lists the non-identity columns in declaration order. */
  lemma {:induction false} WriteRowKeys(cfs: seq<ColumnField>, values: map<string, Value>)
    requires HasFields(cfs, values) && DistinctColumnNames(cfs)
    ensures BuildMap(WritePairs(cfs, values)).keys == NonIdNames(cfs)
  {
    if cfs != [] {
      var init := cfs[..|cfs| - 1];
      var last := cfs[|cfs| - 1];
      assert init + [last] == cfs;
      assert DistinctColumnNames(init);
      WriteRowKeys(init, values);
      WriteRowSnoc(cfs, values);
      NonIdNamesSnoc(init, last);
      forall j | 0 <= j < |init| ensures ColumnNameOf(init[j]) != ColumnNameOf(last) {
        assert init[j] == cfs[j];
      }
      NonIdNamesExclude(init, ColumnNameOf(last));
    }
  }

  /** A name that no column carries is not among the non-identity names. */
  lemma {:induction false} NonIdNamesExclude(cfs: seq<ColumnField>, n: string)
    requires forall j :: 0 <= j < |cfs| ==> ColumnNameOf(cfs[j]) != n
    ensures n !in NonIdNames(cfs)
  {
    if cfs != [] {
      assert forall j :: 0 <= j < |cfs[1..]| ==> cfs[1..][j] == cfs[j + 1];
      NonIdNamesExclude(cfs[1..], n);
    }
  }

  /** With distinct column names, each non-identity column of the row holds its field's current value. */
  lemma {:induction false} WriteRowValues(cfs: seq<ColumnField>, values: map<string, Value>)
    requires HasFields(cfs, values) && DistinctColumnNames(cfs)
    ensures forall i :: 0 <= i < |cfs| && !cfs[i].field.isId ==>
      ColumnNameOf(cfs[i]) in BuildMap(WritePairs(cfs, values)).entries &&
      BuildMap(WritePairs(cfs, values)).entries[ColumnNameOf(cfs[i])] == values[cfs[i].field.name]
  {
    WriteRowMembership(cfs, values);
    if cfs != [] {
      var init := cfs[..|cfs| - 1];
      assert DistinctColumnNames(init);
      WriteRowValues(init, values);
      WriteRowMembership(init, values);
      WriteRowSnoc(cfs, values);
      forall i | 0 <= i < |cfs| - 1 && !cfs[i].field.isId
        ensures BuildMap(WritePairs(cfs, values)).entries[ColumnNameOf(cfs[i])] == values[cfs[i].field.name]
      {
        assert init[i] == cfs[i];
      }
    }
  }

  /**
   * With distinct column names, the row of an instance lists exactly the
   * non-identity columns in declaration order, each with its field's current value;
   * an identity column never appears.
   */
  lemma WriteRowShape(cfs: seq<ColumnField>, values: map<string, Value>)
    requires HasFields(cfs, values) && DistinctColumnNames(cfs)
    ensures BuildMap(WritePairs(cfs, values)).keys == NonIdNames(cfs)
    ensures forall i :: 0 <= i < |cfs| ==>
      (ColumnNameOf(cfs[i]) in BuildMap(WritePairs(cfs, values)).entries <==> !cfs[i].field.isId)
    ensures forall i :: 0 <= i < |cfs| && !cfs[i].field.isId ==>
      BuildMap(WritePairs(cfs, values)).entries[ColumnNameOf(cfs[i])] == values[cfs[i].field.name]
  {
    WriteRowKeys(cfs, values);
    WriteRowMembership(cfs, values);
    WriteRowValues(cfs, values);
  }

  // ---------------------------------------------------------------------------
  // Row to instance

  /** What Row.get returns: the stored value, or null for a missing column. */
  function RowGet(row: Row, name: string): (v: Value)
    ensures name in row.entries ==> v == row.entries[name]
    ensures v != Null ==> name in row.entries
  {
    if name in row.entries then row.entries[name] else Null
  }

  /** The value a column contributes when read: booleans coerced, everything else as stored. */
  function Incoming(cf: ColumnField, row: Row): (v: Value)
    ensures IsBoolean(cf.field.kind) ==> v == BoolV(Truthy(RowGet(row, ColumnNameOf(cf))))
    ensures !IsBoolean(cf.field.kind) ==> v == RowGet(row, ColumnNameOf(cf))
  {
    var raw := RowGet(row, ColumnNameOf(cf));
    if IsBoolean(cf.field.kind) then BoolV(Truthy(raw)) else raw
  }

  /** The row holds no value that its field's type rejects. */
  predicate RowFits(cfs: seq<ColumnField>, row: Row) {
    forall i :: 0 <= i < |cfs| ==> Fits(cfs[i].field.kind, Incoming(cfs[i], row))
  }

  /** The fields of a freshly constructed instance. */
  function Defaults(fs: seq<Field>): (d: map<string, Value>)
    ensures Conforms(fs, d)
  {
    if fs == [] then map[]
    else Defaults(fs[..|fs| - 1])[fs[|fs| - 1].name := fs[|fs| - 1].initial]
  }

  lemma {:induction false} DefaultsAt(fs: seq<Field>, i: nat)
    requires DistinctFieldNames(fs) && i < |fs|
    ensures Defaults(fs)[fs[i].name] == fs[i].initial
  {
    if i < |fs| - 1 {
      var init := fs[..|fs| - 1];
      assert init[i] == fs[i];
      DefaultsAt(init, i);
    }
  }

  /** The fields a row sets: those of the columns whose incoming value is not null. */
  ghost function ReadNames(cfs: seq<ColumnField>, row: Row): set<string> {
    set i | 0 <= i < |cfs| && Incoming(cfs[i], row) != Null :: cfs[i].field.name
  }

  lemma ReadNamesSnoc(cfs: seq<ColumnField>, row: Row)
    requires cfs != []
    ensures var last := cfs[|cfs| - 1];
      ReadNames(cfs, row) == ReadNames(cfs[..|cfs| - 1], row) + (if Incoming(last, row) == Null then {} else {last.field.name})
  {
    var init := cfs[..|cfs| - 1];
    var last := cfs[|cfs| - 1];
    forall n | n in ReadNames(cfs, row)
      ensures n in ReadNames(init, row) + (if Incoming(last, row) == Null then {} else {last.field.name})
    {
      var i :| 0 <= i < |cfs| && Incoming(cfs[i], row) != Null && cfs[i].field.name == n;
      if i < |init| {
        assert init[i] == cfs[i];
      }
    }
    forall n | n in ReadNames(init, row) ensures n in ReadNames(cfs, row) {
      var i :| 0 <= i < |init| && Incoming(init[i], row) != Null && init[i].field.name == n;
      assert cfs[i] == init[i];
    }
  }

  /** The instance fields after every column has been read, first to last, over the given start. */
  function ReadValues(cfs: seq<ColumnField>, start: map<string, Value>, row: Row): (r: map<string, Value>)
    ensures r.Keys == start.Keys + ReadNames(cfs, row)
  {
    if cfs == [] then start
    else
      ReadNamesSnoc(cfs, row);
      var prev := ReadValues(cfs[..|cfs| - 1], start, row);
      var last := cfs[|cfs| - 1];
      var v := Incoming(last, row);
      if v == Null then prev else prev[last.field.name := v]
  }

  /** Reading one more column applies that column's value, unless it is null. */
  lemma ReadValuesSnoc(cfs: seq<ColumnField>, start: map<string, Value>, row: Row, i: nat)
    requires i < |cfs|
    ensures var v := Incoming(cfs[i], row);
      ReadValues(cfs[..i + 1], start, row)
        == if v == Null then ReadValues(cfs[..i], start, row) else ReadValues(cfs[..i], start, row)[cfs[i].field.name := v]
  {
    assert cfs[..i + 1][..i] == cfs[..i];
  }

  ghost predicate DistinctColumnFieldNames(cfs: seq<ColumnField>) {
    forall i, j :: 0 <= i < j < |cfs| ==> cfs[i].field.name != cfs[j].field.name
  }

  /** A field that is no column keeps its starting value. */
  lemma {:induction false} ReadValuesOther(cfs: seq<ColumnField>, start: map<string, Value>, row: Row, n: string)
    requires forall i :: 0 <= i < |cfs| ==> cfs[i].field.name != n
    ensures n in ReadValues(cfs, start, row) <==> n in start
    ensures n in start ==> ReadValues(cfs, start, row)[n] == start[n]
  {
    if cfs != [] {
      ReadValuesOther(cfs[..|cfs| - 1], start, row, n);
    }
  }

  /** A column's field holds the value read for it, or keeps its starting value when that is null. */
  lemma {:induction false} ReadValuesAt(cfs: seq<ColumnField>, start: map<string, Value>, row: Row, i: nat)
    requires DistinctColumnFieldNames(cfs) && i < |cfs| && cfs[i].field.name in start
    ensures var r := ReadValues(cfs, start, row);
      && cfs[i].field.name in r
      && r[cfs[i].field.name] == if Incoming(cfs[i], row) == Null then start[cfs[i].field.name] else Incoming(cfs[i], row)
  {
    var init := cfs[..|cfs| - 1];
    if i < |cfs| - 1 {
      assert init[i] == cfs[i];
      assert DistinctColumnFieldNames(init);
      ReadValuesAt(init, start, row, i);
    } else {
      forall j | 0 <= j < |init| ensures init[j].field.name != cfs[i].field.name {
        assert init[j] == cfs[j];
      }
      ReadValuesOther(init, start, row, cfs[i].field.name);
    }
  }

  /**
   * A fresh instance read from a row: a boolean column is true exactly for the
   * integer 1 or the string "true" and false otherwise, even when null or missing;
   * any other column takes the row's value, or keeps the constructor's value when
   * the row's is null or missing; a field that is no column keeps the constructor's value.
   */
  lemma ReadInstance(fs: seq<Field>, row: Row)
    requires DistinctFieldNames(fs)
    ensures var cfs := ColumnFields(fs);
      var r := ReadValues(cfs, Defaults(fs), row);
      && (forall f :: f in fs ==> f.name in r)
      && (forall i :: 0 <= i < |cfs| && IsBoolean(cfs[i].field.kind) ==>
            r[cfs[i].field.name] == BoolV(Truthy(RowGet(row, ColumnNameOf(cfs[i])))))
      && (forall i :: 0 <= i < |cfs| && !IsBoolean(cfs[i].field.kind) ==>
            r[cfs[i].field.name] == if RowGet(row, ColumnNameOf(cfs[i])) == Null then cfs[i].field.initial
                                    else RowGet(row, ColumnNameOf(cfs[i])))
      && (forall k :: 0 <= k < |fs| && fs[k].column.None? ==> r[fs[k].name] == fs[k].initial)
  {
    var cfs := ColumnFields(fs);
    var d := Defaults(fs);
    ColumnFieldsDistinct(fs);
    forall i | 0 <= i < |cfs|
      ensures cfs[i].field.name in ReadValues(cfs, d, row)
      ensures ReadValues(cfs, d, row)[cfs[i].field.name]
        == if Incoming(cfs[i], row) == Null then cfs[i].field.initial else Incoming(cfs[i], row)
    {
      var k :| 0 <= k < |fs| && fs[k] == cfs[i].field;
      DefaultsAt(fs, k);
      ReadValuesAt(cfs, d, row, i);
    }
    forall k | 0 <= k < |fs| && fs[k].column.None?
      ensures fs[k].name in ReadValues(cfs, d, row) && ReadValues(cfs, d, row)[fs[k].name] == fs[k].initial
    {
      forall i | 0 <= i < |cfs| ensures cfs[i].field.name != fs[k].name {
        var k' :| 0 <= k' < |fs| && fs[k'] == cfs[i].field;
      }
      DefaultsAt(fs, k);
      ReadValuesOther(cfs, d, row, fs[k].name);
    }
    forall f | f in fs ensures f.name in ReadValues(cfs, d, row) {
      var k :| 0 <= k < |fs| && fs[k] == f;
      if f.column.Some? {
        assert ColumnField(f, f.column.value) in cfs;
      }
    }
  }

  // ---------------------------------------------------------------------------
  // Generated keys

  /** The instance fields after the generated key, if any, is written to the first identity column. */
  function WithGeneratedKey(cfs: seq<ColumnField>, values: map<string, Value>, key: Option<int>): (r: map<string, Value>)
    ensures key.None? || IdIndex(cfs).None? ==> r == values
    ensures key.Some? && IdIndex(cfs).Some? ==>
      var n := cfs[IdIndex(cfs).value].field.name;
      && r.Keys == values.Keys + {n} && r[n] == IntV(key.value)
      && forall m :: m in values && m != n ==> r[m] == values[m]
  {
    match IdIndex(cfs)
    case Some(i) => if key.Some? then values[cfs[i].field.name := IntV(key.value)] else values
    case None => values
  }

  /** The key goes to the first identity column in declaration order, and nothing else changes. */
  lemma GeneratedKeyFirstId(cfs: seq<ColumnField>, values: map<string, Value>, k: int, i: nat)
    requires i < |cfs| && cfs[i].field.isId
    requires forall j :: 0 <= j < i ==> !cfs[j].field.isId
    ensures WithGeneratedKey(cfs, values, Some(k)) == values[cfs[i].field.name := IntV(k)]
  {
  }

  /** Without a key, or without an identity column, the instance is unchanged. */
  lemma GeneratedKeyNoop(cfs: seq<ColumnField>, values: map<string, Value>, key: Option<int>)
    requires key.None? || forall j :: 0 <= j < |cfs| ==> !cfs[j].field.isId
    ensures WithGeneratedKey(cfs, values, key) == values
  {
  }

  /** The generated key can be stored in the first identity column. */
  predicate KeyFits(cfs: seq<ColumnField>, k: int) {
    match IdIndex(cfs)
    case Some(i) => Fits(cfs[i].field.kind, IntV(k))
    case None => true
  }

  // ---------------------------------------------------------------------------
  // Writing then reading

  /**
   * Reading back the row written for an instance, with distinct field and column
   * names: a non-identity, non-boolean column with a non-null value comes back
   * unchanged; a boolean column comes back true only if the value written was the
   * integer 1 or the string "true" (so a written Boolean true reads back false);
   * a non-boolean identity column is not written and keeps the constructor's value.
   */
  lemma WriteThenRead(fs: seq<Field>, values: map<string, Value>)
    requires DistinctFieldNames(fs) && DistinctColumnNames(ColumnFields(fs)) && Conforms(fs, values)
    ensures var cfs := ColumnFields(fs);
      HasFields(cfs, values) &&
      var r := ReadValues(cfs, Defaults(fs), BuildMap(WritePairs(cfs, values)));
      && (forall i :: 0 <= i < |cfs| ==> cfs[i].field.name in r)
      && (forall i :: 0 <= i < |cfs| && !cfs[i].field.isId && !IsBoolean(cfs[i].field.kind) && values[cfs[i].field.name] != Null ==>
            r[cfs[i].field.name] == values[cfs[i].field.name])
      && (forall i :: 0 <= i < |cfs| && !cfs[i].field.isId && IsBoolean(cfs[i].field.kind) ==>
            r[cfs[i].field.name] == BoolV(Truthy(values[cfs[i].field.name])))
      && (forall i :: 0 <= i < |cfs| && cfs[i].field.isId && !IsBoolean(cfs[i].field.kind) ==>
            r[cfs[i].field.name] == cfs[i].field.initial)
  {
    var cfs := ColumnFields(fs);
    assert HasFields(cfs, values) by {
      forall i | 0 <= i < |cfs| ensures cfs[i].field.name in values {
        assert cfs[i].field in fs;
      }
    }
    var row := BuildMap(WritePairs(cfs, values));
    WriteRowShape(cfs, values);
    ReadInstance(fs, row);
    forall i | 0 <= i < |cfs| ensures cfs[i].field.name in ReadValues(cfs, Defaults(fs), row) {
      assert cfs[i].field in fs;
    }
  }

  /** The columns of the example model: an identity id, a name and an active flag, all unnamed annotations. */
  function ExampleFields(): seq<Field> {
    var col := Column("", "", false, -1, true, false, false, "");
    [Field("id", IntKind, Some(col), true, IntV(0)),
     Field("name", StringKind, Some(col), false, Null),
     Field("active", BooleanKind, Some(col), false, BoolV(false))]
  }

  lemma ExampleColumns()
    ensures var fs := ExampleFields();
      ColumnFields(fs) == [ColumnField(fs[0], fs[0].column.value), ColumnField(fs[1], fs[1].column.value), ColumnField(fs[2], fs[2].column.value)]
  {
    var fs := ExampleFields();
    assert fs[..2][..1] == [fs[0]] && fs[..2] == [fs[0], fs[1]];
  }

  /** Reading id 7, "Ann" and 1, with no generated key, gives id 7, name "Ann" and active true. */
  lemma ReadBackExample()
    ensures
      var fs := ExampleFields();
      var row := LinkedMap(["id", "name", "active"], map["id" := IntV(7), "name" := StrV("Ann"), "active" := IntV(1)]);
      var r := WithGeneratedKey(ColumnFields(fs), ReadValues(ColumnFields(fs), Defaults(fs), row), None);
      && "id" in r && r["id"] == IntV(7)
      && "name" in r && r["name"] == StrV("Ann")
      && "active" in r && r["active"] == BoolV(true)
  {
    var fs := ExampleFields();
    var row := LinkedMap(["id", "name", "active"], map["id" := IntV(7), "name" := StrV("Ann"), "active" := IntV(1)]);
    ExampleColumns();
    ReadInstance(fs, row);
    var cfs := ColumnFields(fs);
    assert ColumnNameOf(cfs[0]) == "id" && ColumnNameOf(cfs[1]) == "name" && ColumnNameOf(cfs[2]) == "active";
  }

  lemma ExampleWriteNames()
    ensures NonIdNames(ColumnFields(ExampleFields())) == ["name", "active"]
  {
    ExampleColumns();
    var cfs := ColumnFields(ExampleFields());
    assert cfs[1..][0] == cfs[1] && cfs[1..][1..] == [cfs[2]] && cfs[1..][1..][1..] == [];
    assert NonIdNames(cfs[1..][1..]) == ["active"];
    assert NonIdNames(cfs[1..]) == ["name", "active"];
  }

  /** Writing id 0, "Ann" and true gives the row name "Ann", active true, and no id. */
  lemma WriteExample()
    ensures
      var values := map["id" := IntV(0), "name" := StrV("Ann"), "active" := BoolV(true)];
      var cfs := ColumnFields(ExampleFields());
      HasFields(cfs, values) &&
      var row := BuildMap(WritePairs(cfs, values));
      && row.Valid() && row.keys == ["name", "active"] && "id" !in row.entries
      && row.entries["name"] == StrV("Ann") && row.entries["active"] == BoolV(true)
  {
    var values := map["id" := IntV(0), "name" := StrV("Ann"), "active" := BoolV(true)];
    ExampleColumns();
    ExampleWriteNames();
    var cfs := ColumnFields(ExampleFields());
    assert ColumnNameOf(cfs[0]) == "id" && ColumnNameOf(cfs[1]) == "name" && ColumnNameOf(cfs[2]) == "active";
    WriteRowShape(cfs, values);
    assert !cfs[1].field.isId && !cfs[2].field.isId;
  }

  // ---------------------------------------------------------------------------
  // The objects

  /** An instance of a model class: its fields by name. */
  class Instance {
    var values: map<string, Value>

    constructor (init: map<string, Value>)
      ensures values == init
    {
      values := init;
    }
  }

  /** The binding of a model class to a named table; it never changes after construction. */
  class Table {
    const name: string
    const model: Model

    constructor (name: string, model: Model)
      ensures this.name == name && this.model == model
    {
      this.name := name;
      this.model := model;
    }

    /** The annotated fields, in declaration order, each with its annotation. */
    method GetColumnFields() returns (cfs: seq<ColumnField>)
      ensures cfs == ColumnFields(model.fields)
    {
      var fields := model.fields;
      cfs := [];
      var i := 0;
      while i < |fields|
        invariant 0 <= i <= |fields|
        invariant cfs == ColumnFields(fields[..i])
      {
        var f := fields[i];
        assert fields[..i + 1][..i] == fields[..i];
        if f.column.Some? {
          cfs := cfs + [ColumnField(f, f.column.value)];
        }
        i := i + 1;
      }
      assert fields[..i] == fields;
    }

    /** One name per annotated field, including the identity field, in declaration order. */
    method GetColumns() returns (names: seq<string>)
      ensures |names| == |ColumnFields(model.fields)|
      ensures forall i :: 0 <= i < |names| ==> names[i] == ColumnNameOf(ColumnFields(model.fields)[i])
    {
      var cfs := GetColumnFields();
      names := [];
      for i := 0 to |cfs|
        invariant |names| == i
        invariant forall j :: 0 <= j < i ==> names[j] == ColumnNameOf(cfs[j])
      {
        names := names + [ColumnName(cfs[i].field, cfs[i].column)];
      }
    }

    /** The modifier text of a column, built token by token in the fixed order. */
    method GetColumnModifiers(f: Field, c: Column) returns (r: string)
      ensures r == ModifierText(f, c)
    {
      var sql: seq<string> := [];
      ghost var ms: seq<Modifier> := [];
      if f.isId {
        sql := sql + ["AUTO_INCREMENT"];
      }
      ms := AddIf(ms, f.isId, AutoIncrement);
      assert sql == Tokens(ms);
      if !c.nullable || f.isId {
        sql := sql + ["NOT NULL"];
      }
      TokensSnoc(ms, NotNull);
      ms := AddIf(ms, !c.nullable || f.isId, NotNull);
      assert sql == Tokens(ms);
      if c.primaryKey || f.isId {
        sql := sql + ["PRIMARY KEY"];
      }
      TokensSnoc(ms, PrimaryKey);
      ms := AddIf(ms, c.primaryKey || f.isId, PrimaryKey);
      assert sql == Tokens(ms);
      if c.unique {
        sql := sql + ["UNIQUE"];
      }
      TokensSnoc(ms, Unique);
      ms := AddIf(ms, c.unique, Unique);
      assert sql == Tokens(ms);
      if |c.def| > 0 {
        match ParseInt(c.def)
        case Some(value) =>
          sql := sql + ["DEFAULT " + IntToString(value)];
        case None =>
          sql := sql + ["DEFAULT '" + c.def + "'"];
      }
      TokensSnoc(ms, Default(DefaultClause(c.def)));
      ms := AddIf(ms, |c.def| > 0, Default(DefaultClause(c.def)));
      assert sql == Tokens(ms);
      r := Join(" ", sql);
    }

    /**
     * The createTable call for the model: every column name with its type, in
     * declaration order, or the first type synthesis failure, in which case no
     * call is made.
     */
    method Create() returns (r: Result<CreateTableCall, string>)
      ensures var spec := CreateSpec(ColumnFields(model.fields));
        && (r.Success? <==> spec.Success?)
        && (r.Success? ==> r.value == CreateTableCall(name, spec.value))
        && (r.Failure? ==> r.error == spec.error)
    {
      var cfs := GetColumnFields();
      var columns: LinkedMap<string> := Empty();
      for i := 0 to |cfs|
        invariant CreateSpec(cfs[..i]) == Success(columns)
      {
        assert cfs[..i + 1][..i] == cfs[..i];
        var column := ColumnName(cfs[i].field, cfs[i].column);
        var t := ColumnType(cfs[i].field, cfs[i].column);
        if t.Failure? {
          CreateFailurePrefix(cfs, i + 1);
          return Failure(t.error);
        }
        columns := columns.Put(column, t.value);
      }
      assert cfs[..|cfs|] == cfs;
      r := Success(CreateTableCall(name, columns));
    }

    /** The row written for an instance: every non-identity column with its field's current value. */
    method FromInstance(instance: Instance) returns (row: Row)
      requires Conforms(model.fields, instance.values)
      ensures row == BuildMap(WritePairs(ColumnFields(model.fields), instance.values))
    {
      var cfs := GetColumnFields();
      assert HasFields(cfs, instance.values) by {
        forall i | 0 <= i < |cfs| ensures cfs[i].field.name in instance.values {
          assert cfs[i].field in model.fields;
        }
      }
      var values: Row := Empty();
      for i := 0 to |cfs|
        invariant values == BuildMap(WritePairs(cfs[..i], instance.values))
      {
        assert cfs[..i + 1][..i] == cfs[..i];
        WriteRowSnoc(cfs[..i + 1], instance.values);
        var f := cfs[i].field;
        if f.isId {
          continue;
        }
        var column := ColumnName(f, cfs[i].column);
        var value := instance.values[f.name];
        values := values.Put(column, value);
      }
      assert cfs[..|cfs|] == cfs;
      row := values;
    }

    /**
     * A fresh instance read from a row: every column, the identity included, is
     * looked up by name; boolean columns are coerced, null values skipped.
     */
    method NewInstance(row: Row) returns (r: Result<Instance, string>)
      requires model.instantiable ==> RowFits(ColumnFields(model.fields), row)
      ensures !model.instantiable ==>
        r == Failure("Couldn't instantiate model via \"new " + model.simpleName + "()\".")
      ensures model.instantiable ==>
        && r.Success? && fresh(r.value)
        && r.value.values == ReadValues(ColumnFields(model.fields), Defaults(model.fields), row)
    {
      if !model.instantiable {
        return Failure("Couldn't instantiate model via \"new " + model.simpleName + "()\".");
      }
      var start := Defaults(model.fields);
      var instance := new Instance(start);
      var cfs := GetColumnFields();
      for i := 0 to |cfs|
        invariant instance.values == ReadValues(cfs[..i], start, row)
      {
        assert cfs[..i + 1][..i] == cfs[..i];
        var f := cfs[i].field;
        var column := ColumnName(f, cfs[i].column);
        var value := RowGet(row, column);
        if f.kind == BooleanKind || f.kind == BoxedBooleanKind {
          value := BoolV(value != Null && (value == IntV(1) || value == StrV("true")));
        }
        assert value == Incoming(cfs[i], row);
        ReadValuesSnoc(cfs, start, row, i);
        if value == Null {
          continue;
        }
        instance.values := instance.values[f.name := value];
      }
      assert cfs[..|cfs|] == cfs;
      r := Success(instance);
    }

    /** Writes a present key into the first identity column of the instance and returns that same instance. */
    method ApplyAutoGenerated(instance: Instance, key: Option<int>) returns (r: Instance)
      requires key.Some? ==> KeyFits(ColumnFields(model.fields), key.value)
      modifies instance
      ensures r == instance
      ensures instance.values == WithGeneratedKey(ColumnFields(model.fields), old(instance.values), key)
    {
      if key.Some? {
        var cfs := GetColumnFields();
        var id := IdIndex(cfs);
        if id.Some? {
          instance.values := instance.values[cfs[id.value].field.name := IntV(key.value)];
        }
      }
      r := instance;
    }
  }
}

=== FILE: wrappers.dfy ===
/** Option and Result, used for the model's absent values and its exceptions. */
module Wrappers {

  datatype Option<+T> = None | Some(value: T)

  /** Success carries the value; Failure carries the message of the exception the source throws. */
  datatype Result<+R, +E> = Success(value: R) | Failure(error: E)
}
